=== FILE: README.md ===
# Solana balance watcher: a Dafny model of its parsing and polling core

The watcher samples lamport balances of Solana accounts over RPC and publishes
them as Prometheus gauges. This project models the logic that sits between the
command line, the RPC node and the gauges, and proves properties of it:

- **Filter and config parsing** (`program_accounts_balance.rs`). A
  `--program-accounts` flag has the form `name=program tok1 tok2 ...`. Each
  token is `b58:<offset>:<bytes>` (a memcmp filter) or `size:<n>` (a data-size
  filter). The parser splits at the FIRST `=` and the first `:`, and splits the
  params on every single space. The base58 payload is kept verbatim and not
  decoded. An empty name is accepted. An undecodable program id panics through
  `expect` instead of returning an error. The model keeps the three outcomes
  apart: `Ok`, `Err` and `Panic`.
- **Start-up** (`bin/cli.rs`). The `--named-address name=address` flags are
  folded into a map from address to name. The fold panics on a missing `=`, on
  an undecodable address, and on any repeated address, even one repeated with
  the same name. The program-accounts flags are then parsed in flag order, and
  the first failure ends start-up.
- **One poll cycle of each watcher** (`balance.rs`, the loop body of
  `program_accounts_balance.rs`). Each cycle is a pure step function from the
  metrics store and an RPC outcome to a new store. The store (`metrics.rs`) is
  two finite maps: `balance_sol` keyed by `(name, pubkey)` and
  `total_balance_sol` keyed by `name`.
  - Fixed-address watcher: pairs its addresses with the response position by
    position, writes an absent account as 0, and on a transport error resets
    every per-account gauge.
  - Program-accounts watcher: writes the sum of the returned lamports as its
    own total, and on a transport error removes only its own total.

Files, in dependency order:
- `wrappers.dfy`: the `Option` type.
- `text.dfy`: `split_once`, `split`, and Rust's `u64::from_str`. The last one
  accepts one leading `+` and leading zeros, and rejects a `-`, empty text and
  overflow. A failure carries the `ParseIntError` kind (`Empty`,
  `InvalidDigit` or `PosOverflow`), which is all that the error propagated by
  `?` holds: the failing text is not part of it.
- `solana.dfy`: `Pubkey`, `Account`, and the RPC outcome type. It also holds
  the types of the base58 decoder and encoder, which every operation takes as
  parameters.
- `outcomes.dfy`: `Ok`/`Err`/`Panic`, and `ParseAll`, which is the `?` inside a
  `for` loop.
- `metrics.dfy`, `program_accounts.dfy`, `balance.dfy`, `cli.dfy`: one module
  per source file.

## Model

| member | source | states |
|---|---|---|
| Text.SplitOnce | src/program_accounts_balance.rs:54 | `split_once` fails exactly when the separator is absent. Otherwise the text is left + separator + right, and the left part contains no separator. |
| Text.SplitOnceOfConcat | src/bin/cli.rs:54 | If the left part contains no separator, splitting `left + c + right` at the first `c` gives back exactly `left` and `right`. |
| Text.Split | src/program_accounts_balance.rs:61 | `split(' ')` yields at least one piece, none of the pieces contains a space, and joining the pieces with spaces rebuilds the input. |
| Text.SplitOfJoin | src/program_accounts_balance.rs:61 | Joining space-free pieces with single spaces and splitting again gives back the same pieces. |
| Text.ParseU64 | src/program_accounts_balance.rs:47 | Empty text fails as `Empty`, and only empty text does. A lone sign, and any text starting with `-`, fails as `InvalidDigit`. When the text after an optional `+` is all digits, the result is the number those digits write (by the digit-by-digit definition) if it is below 2^64, and `PosOverflow` otherwise. A success has only digits after an optional leading `+`. |
| Text.ParseFormatRoundTrip | src/program_accounts_balance.rs:47 | Parsing the decimal text of any u64 gives the same number back. |
| Text.ParsePlusFormat | src/program_accounts_balance.rs:47 | A `+` in front of the digits is accepted. |
| Text.ParseRejectsOverflow | src/program_accounts_balance.rs:47 | Decimal text of any number of 2^64 or more fails as `PosOverflow`. |
| Text.ParsePaddedFormat | src/program_accounts_balance.rs:47 | Leading zeros are accepted and ignored: any number of `0`s before the decimal text of `n` still parses to `n`. |
| Text.ParseInvalidDigit | src/program_accounts_balance.rs:47 | After the optional leading `+`, a non-digit reached while the digits before it still fit in a u64 fails the parse as `InvalidDigit`, whatever comes after it (a lone sign included). |
| Text.ParseOverflowFirst | src/program_accounts_balance.rs:47 | After the optional leading `+`, digits whose value passes 2^64 before any non-digit is reached fail the parse as `PosOverflow`, whatever comes after them. Together with `ParseInvalidDigit`, this fixes the failure kind of every input. |
| Outcomes.ParseAll | src/program_accounts_balance.rs:69-72 | The `?` loop succeeds iff every element parses. On success its results are in input order. On failure the result is the failure of the first failing element, and every element before it parsed. |
| Outcomes.ParseAllIgnoresLaterInput | src/program_accounts_balance.rs:69-72 | After a failure, adding more input does not change the result. |
| ProgramAccounts.ParseFilter | src/program_accounts_balance.rs:25-34 | A token with no `:` is rejected as malformed. Filter parsing never panics, and it only produces filter errors. |
| ProgramAccounts.FilterUnsupportedKind | src/program_accounts_balance.rs:26-30 | If the text before the first `:` is neither `b58` nor `size`, the token is rejected as unsupported, and the error names that kind. |
| ProgramAccounts.ParseDataSize | src/program_accounts_balance.rs:46-48 | Text that parses as a u64 gives exactly the data-size filter of that number. Text that does not parse gives an integer error with the parse's error kind. |
| ProgramAccounts.FilterDataSize | src/program_accounts_balance.rs:29 | `size:<n>` succeeds exactly when `<n>` parses as a u64, and then it yields `DataSize(n)`. |
| ProgramAccounts.FilterDataSizeRoundTrip | src/program_accounts_balance.rs:46-48 | `size:` followed by the decimal text of any u64 `n` yields exactly `DataSize(n)`. |
| ProgramAccounts.FilterDataSizeRejectsNegative | src/program_accounts_balance.rs:46-48 | `size:-…` is rejected with the `InvalidDigit` kind, because `-` is not a sign for an unsigned parse. |
| ProgramAccounts.ParseMemcmp | src/program_accounts_balance.rs:36-44 | A value with no `:` is rejected as malformed. Otherwise the result is a memcmp filter, a malformed-memcmp error or an integer error. |
| ProgramAccounts.FilterMemcmpRoundTrip | src/program_accounts_balance.rs:36-44 | `b58:<off>:<rest>` yields a memcmp filter at the parsed offset. Its bytes are exactly `rest`, verbatim, and `rest` may itself contain `:`. |
| ProgramAccounts.FilterMemcmpMissingSecondColon | src/program_accounts_balance.rs:43 | A `b58` value without a second `:` is rejected. |
| ProgramAccounts.FilterMemcmpBadOffset | src/program_accounts_balance.rs:36-44 | A `b58` token whose offset does not parse as a u64 is rejected with an integer error carrying the parse's error kind. |
| ProgramAccounts.ParseFilters | src/program_accounts_balance.rs:69-72 | All filters are parsed iff every token parses. On success there is one filter per token, in token order. |
| ProgramAccounts.ParseConfig | src/program_accounts_balance.rs:53-79 | A string with no `=` is exactly the missing-separator error. The name is the text before the first `=`. The "program id not found" error is never returned. A panic means the program id did not decode. |
| ProgramAccounts.ConfigRoundTrip | src/program_accounts_balance.rs:53-79 | Take a name with no `=`, a space-free program id and space-free tokens. If the program id does not decode, parsing panics. Otherwise parsing gives the name, the decoded program and the filters from the tokens in order, or the first token's error. |
| ProgramAccounts.ConfigBadTokenFails | src/program_accounts_balance.rs:70-72 | One bad filter token makes the whole config fail with an error. |
| ProgramAccounts.ConfigEmptyTokenFails | src/program_accounts_balance.rs:61-72 | An empty token, from a doubled or trailing space, is malformed, so the config fails. |
| ProgramAccounts.ConfigTrailingSpaceFails | src/program_accounts_balance.rs:61-72 | `name=program ` with a trailing space fails with a malformed-parameter error for the empty token. |
| ProgramAccounts.ConfigEmptyName | src/program_accounts_balance.rs:54-55 | `=program` is accepted, and the resulting name is empty. |
| ProgramAccounts.ConfigEmptyParams | src/program_accounts_balance.rs:61-67 | With empty params the empty text reaches the decoder. The result is a panic or a config with no filters, never "program id not found". |
| ProgramAccounts.ConfigExample | src/program_accounts_balance.rs:53-79 | `treasury=ProgramXYZ size:165 b58:32:ABC123` parses to the name `treasury`, the decoded program and `[DataSize(165), Memcmp(32, "ABC123")]`. |
| ProgramAccounts.TotalLamportsAppend | src/program_accounts_balance.rs:117-118 | The total of two concatenated lists is the sum of their totals. |
| ProgramAccounts.TotalLamportsPermutation | src/program_accounts_balance.rs:117-118 | The total does not depend on the order in which the accounts are returned. |
| ProgramAccounts.TotalLamports | src/program_accounts_balance.rs:117-118 | The sum of no accounts is 0, and the sum is at most the number of accounts times the largest u64. |
| ProgramAccounts.TotalLamportsAtLeast | src/program_accounts_balance.rs:117-118 | No single returned account holds more lamports than the total. |
| ProgramAccounts.Cycle | src/program_accounts_balance.rs:107-119 | After a success, the total for the config's name is the sum of the returned lamports. After a failure, that total is absent. Totals for other names and all per-account gauges are unchanged. |
| ProgramAccounts.CycleExample | src/program_accounts_balance.rs:117-119 | Returned accounts holding 100, 200 and 300 lamports give a total of 600. |
| ProgramAccounts.CyclesCommute | src/program_accounts_balance.rs:107-119 | The cycles of two differently named configs give the same store in either order, so the watchers do not interfere. |
| Metrics.UpdateBalance | src/metrics.rs:27-31 | This is an upsert keyed by `(name, pubkey)`. No other key changes, and the totals are not touched. |
| Metrics.UpdateBalanceIdempotent | src/metrics.rs:27-31 | Writing the same balance twice gives the same store as writing it once. |
| Metrics.UpdateTotal | src/metrics.rs:33-37 | This is an upsert keyed by the name alone. No other name changes, and the per-account gauges are not touched. |
| Metrics.UpdateTotalIdempotent | src/metrics.rs:33-37 | Writing the same total twice gives the same store as writing it once. |
| Metrics.ResetBalances | src/metrics.rs:39-41 | Every per-account gauge is removed, and the totals are unchanged. |
| Metrics.RemoveTotal | src/metrics.rs:43-45 | Only the total for `name` is removed. Other totals and the per-account gauges are unchanged. |
| Metrics.RemoveAbsentTotalIsNoOp | src/metrics.rs:44 | Removing a name that is not present changes nothing and raises no error. |
| Metrics.RemoveTotalIdempotent | src/metrics.rs:43-45 | Removing the same total twice gives the same store as removing it once. |
| Balance.CollectPubkeys | src/balance.rs:19 | The polled list holds every key of the name map exactly once and nothing else. |
| Balance.NewWatcher | src/balance.rs:19 | The watcher built for a map is valid, so the name lookup of every polled address succeeds (line 52). |
| Balance.ApplyWrites | src/balance.rs:44-56 | The sequential gauge writes leave the totals unchanged and remove no label. Every written label is present afterwards. |
| Balance.ApplyWritesLast | src/balance.rs:44-56 | A label written at some position and never again holds the value written there. |
| Balance.ApplyWritesUntouched | src/balance.rs:44-56 | A label that is never written keeps its presence and its value. |
| Balance.Cycle | src/balance.rs:34-56 | After a failure, no per-account gauge is left. Otherwise no existing gauge is removed. The totals are never touched. |
| Balance.CycleWritesZipped | src/balance.rs:44-55 | After a success, for each position below both the list length and the response length, the gauge `(name(pk), pk)` holds that account's lamports, or 0 when the account is absent. |
| Balance.CycleAbsentAccountIsZero | src/balance.rs:45-49 | An absent account is written as 0, not skipped, and it is reported as missing. |
| Balance.CycleSkipsBeyondResponse | src/balance.rs:44 | Addresses past the end of a short response keep their previous gauge, because the zip stops there. |
| Balance.CycleKeepsOtherLabels | src/balance.rs:44-56 | A label that no zipped pair writes keeps its presence and its value. |
| Balance.CycleCoversAllAddresses | src/balance.rs:44-56 | A response as long as the address list leaves a gauge for every watched address. |
| Balance.CycleExample | src/balance.rs:44-56 | The response `[Some(10^9 lamports), None]` sets the two gauges to 10^9 and 0, and reports the second address as missing. |
| Balance.MissingAccounts | src/balance.rs:45-47 | The reported addresses are exactly those at zipped positions whose response entry is absent. |
| Balance.LamportsOrZero | src/balance.rs:49 | An absent account is written as 0 and a present one as its lamports; either way the value fits in a u64. |
| Balance.Writes | src/balance.rs:44-55 | There is one write per zipped pair, so as many as the shorter of the address list and the response. Write `i` goes to the label of the `i`-th address (its name and encoded pubkey), with that account's lamports or 0. |
| Cli.ParseNamedAddress | src/bin/cli.rs:53-63 | A flag with no `=` panics as malformed. A flag with an `=` is either accepted or panics because the address does not decode. An accepted flag has the name before the first `=` and the decoded text after it as its address. It never returns `Err`. |
| Cli.ParseNamedAddressOfConcat | src/bin/cli.rs:53-63 | Conversely, `name=text` with an `=`-free name is accepted as that name and the decoded address whenever the text decodes, and otherwise panics naming the text. |
| Cli.InsertNamed | src/bin/cli.rs:57-60 | A present address panics with the previous name. Otherwise exactly one mapping is added, from the address to the name, and every other mapping is unchanged. |
| Cli.AddEntry | src/bin/cli.rs:53-64 | One loop iteration succeeds iff the flag parses and its address is new; it then adds exactly that address-to-name mapping. A parse failure panics with the parse's reason. It never returns `Err`. |
| Cli.InsertSpec | src/bin/cli.rs:57-60 | Given a map that describes distinct earlier flags, inserting one more address panics iff that address repeats an earlier one. Otherwise the updated map describes the earlier flags plus the new one. |
| Cli.BuildNamedPubkeys | src/bin/cli.rs:51-65 | The fold never returns `Err`. On success the map holds exactly one entry per flag. |
| Cli.BuildNamedPubkeysSpec | src/bin/cli.rs:51-65 | The fold succeeds iff every flag parses and no address repeats. The map then sends each flag's address to its name and holds nothing else. |
| Cli.RepeatedAddressPanics | src/bin/cli.rs:57-58 | An address that appears in two flags panics, whatever the names are. |
| Cli.SameEntryTwicePanics | src/bin/cli.rs:57-58 | The same flag given twice panics, and the "previous" name in the panic is the same name. |
| Cli.BuildNamedPubkeysStopsAtFailure | src/bin/cli.rs:53-64 | Once a flag has failed, the flags after it do not change the outcome. |
| Cli.BuildNamedPubkeysFirstFailure | src/bin/cli.rs:53-64 | When the flags before flag `i` parse to distinct addresses and flag `i` fails, its failure is the loop's panic. An unparsable flag panics with its own reason. A repeated address panics naming the address, the new name and the earlier flag's name. |
| Cli.ParseConfigs | src/bin/cli.rs:72-77 | All configs are parsed iff every flag parses, with the results in flag order. On failure the result is the first failing flag's error or panic. |
| Cli.ParseConfigsIgnoresLaterFlags | src/bin/cli.rs:72-77 | Flags after the first failing config do not change the outcome. |
| Cli.Startup | src/bin/cli.rs:51-77 | A named-address failure panics before any config is read. Start-up succeeds iff both stages succeed. A config failure is passed through unchanged. |

## Left out

- Task spawning, the infinite `loop`, and the 300 s and 10 s sleeps. These are
  timing and concurrency concerns, so each watcher is modelled as one cycle.
- The RPC calls `get_multiple_accounts_with_config` and
  `get_program_accounts_with_config`, and their request configs (data slice,
  encoding). These are network I/O; their outcome is a parameter, a payload or
  a transport error.
- `Pubkey::from_str` and `Pubkey::to_string`, which do base58 work in the
  Solana SDK. They are function parameters. Where labels must not collide, the
  encoder is required to be injective, which base58 is.
- `lamports_to_sol`. Gauges hold integer lamports instead of the f64 division
  by 10^9.
- ProgramAccounts.TotalLamports: the sum is unbounded, so the model does not
  cover the overflow of the u64 `.sum()`.
- The count of returned accounts and the `info!`/`error!` log lines. They feed
  only the log, not any gauge. The one diagnostic modelled is the list of
  absent accounts (`Balance.MissingAccounts`).
- Prometheus registration, `GaugeVec` internals, text encoding and the axum
  `/metrics` server (metrics.rs lines 9-25 and 47-72). These are foreign
  libraries and I/O.
- clap flag parsing, the logger setup and the panic hook (cli.rs lines 1-49).
  The hook only turns every panic into exit status 1, which the `Panic` outcome
  stands for.
- Partial start-up. `main` spawns the metrics server and the balance watcher
  (cli.rs lines 70-71) before any config is parsed, and then spawns each
  program-accounts watcher as soon as its config parses. A later failing
  config then ends the process, so `Cli.Startup` models only the final
  outcome.
- The memcmp offset type. The offset is a `usize` in the RPC client, modelled
  with the 64-bit range of `u64`.

=== FILE: balance.dfy ===
/**
 `src/balance.rs`: one cycle of the fixed-address watcher as a transformation
 of the metrics store. The watcher polls the addresses of its name map in one
 fixed order, pairs them position by position with the RPC response, and
 writes one `balance_sol` gauge per pair.
 */
module Balance {
  import opened Wrappers
  import Text
  import opened Solana
  import opened Metrics

  /** `pubkeys` lists every element of `keys` exactly once. */
  predicate Enumerates(pubkeys: seq<Pubkey>, keys: set<Pubkey>)
  {
    && (forall i, j :: 0 <= i < j < |pubkeys| ==> pubkeys[i] != pubkeys[j])
    && (forall i :: 0 <= i < |pubkeys| ==> pubkeys[i] in keys)
    && (forall k :: k in keys ==> k in pubkeys)
  }

  /** The watcher's state: its address-to-name map and the polling order of its addresses. */
  datatype Watcher = Watcher(named: map<Pubkey, string>, pubkeys: seq<Pubkey>)
  {
    predicate Valid()
    {
      Enumerates(pubkeys, named.Keys)
    }
  }

  /**
   `named_pubkeys.keys().cloned().collect()`: the map's keys in some order
   (a hash map promises none), each exactly once.
   */
  method CollectPubkeys(named: map<Pubkey, string>) returns (pubkeys: seq<Pubkey>)
    ensures Enumerates(pubkeys, named.Keys)
    ensures |pubkeys| == |named|
  {
    pubkeys := [];
    var rest := named.Keys;
    while rest != {}
      invariant rest <= named.Keys
      invariant forall i :: 0 <= i < |pubkeys| ==> pubkeys[i] in named.Keys && pubkeys[i] !in rest
      invariant forall i, j :: 0 <= i < j < |pubkeys| ==> pubkeys[i] != pubkeys[j]
      invariant forall k :: k in named.Keys ==> k in rest || k in pubkeys
      invariant |pubkeys| + |rest| == |named.Keys|
      decreases |rest|
    {
      var k :| k in rest;
      pubkeys := pubkeys + [k];
      rest := rest - {k};
    }
  }

  /** The watcher that `spawn_balance_watcher` sets up for a name map. */
  method NewWatcher(named: map<Pubkey, string>) returns (w: Watcher)
    ensures w.Valid() && w.named == named
  {
    var pubkeys := CollectPubkeys(named);
    w := Watcher(named, pubkeys);
  }

  function Min(a: nat, b: nat): nat
  {
    if a <= b then a else b
  }

  /** The gauge label of the `i`-th polled address; the name lookup cannot fail. */
  function LabelAt(w: Watcher, show: PubkeyEncoder, i: nat): Label
    requires w.Valid() && i < |w.pubkeys|
  {
    Label(w.named[w.pubkeys[i]], show(w.pubkeys[i]))
  }

  /** The balance written for one response entry: an absent account counts as 0. */
  function LamportsOrZero(account: Option<Account>): (r: nat)
    ensures r < Text.U64_LIMIT
    ensures account.None? ==> r == 0
    ensures account.Some? ==> r == account.value.lamports as nat
  {
    match account
    case Some(a) => a.lamports as nat
    case None => 0
  }

  /** The gauge writes of a successful cycle, in loop order: one per zipped pair. */
  function Writes(w: Watcher, show: PubkeyEncoder, accounts: seq<Option<Account>>): (r: seq<(Label, nat)>)
    requires w.Valid()
    ensures |r| <= |w.pubkeys| && |r| <= |accounts| && (|r| == |w.pubkeys| || |r| == |accounts|)
    ensures forall i :: 0 <= i < |r| ==>
      && r[i].0.pubkey == show(w.pubkeys[i])
      && r[i].0.name == w.named[w.pubkeys[i]]
      && (accounts[i].Some? ==> r[i].1 == accounts[i].value.lamports as nat)
      && (accounts[i].None? ==> r[i].1 == 0)
  {
    var n := Min(|w.pubkeys|, |accounts|);
    seq(n, i requires 0 <= i < n => (LabelAt(w, show, i), LamportsOrZero(accounts[i])))
  }

  /** The store after performing `writes` one after the other. */
  function ApplyWrites(store: Store, writes: seq<(Label, nat)>): (r: Store)
    ensures r.totals == store.totals
    ensures store.balances.Keys <= r.balances.Keys
    ensures forall i :: 0 <= i < |writes| ==> writes[i].0 in r.balances
  {
    if |writes| == 0 then store
    else
      var last := writes[|writes| - 1];
      UpdateBalance(ApplyWrites(store, writes[..|writes| - 1]), last.0.name, last.0.pubkey, last.1)
  }

  /**
   One pass of the `spawn_balance_watcher` loop after the RPC call: a transport
   error resets every per-account gauge; a response writes one gauge per
   address that has a response entry.
   */
  function Cycle(store: Store, w: Watcher, show: PubkeyEncoder, response: RpcResponse<seq<Option<Account>>>): (r: Store)
    requires w.Valid()
    ensures r.totals == store.totals
    ensures response.RpcErr? ==> |r.balances| == 0
    ensures response.RpcOk? ==> store.balances.Keys <= r.balances.Keys
  {
    match response
    case RpcErr => ResetBalances(store)
    case RpcOk(accounts) => ApplyWrites(store, Writes(w, show, accounts))
  }

  /** The addresses reported as "does not exist": the zipped positions whose entry is absent. */
  function MissingAccounts(pubkeys: seq<Pubkey>, accounts: seq<Option<Account>>): (r: seq<Pubkey>)
    ensures forall k :: k in r <==>
      exists i :: 0 <= i < |pubkeys| && i < |accounts| && accounts[i].None? && pubkeys[i] == k
  {
    if |pubkeys| == 0 || |accounts| == 0 then []
    else
      var rest := MissingAccounts(pubkeys[1..], accounts[1..]);
      assert forall k :: k in rest <==>
        exists i :: 1 <= i < |pubkeys| && i < |accounts| && accounts[i].None? && pubkeys[i] == k by {
        forall k ensures k in rest <==>
          exists i :: 1 <= i < |pubkeys| && i < |accounts| && accounts[i].None? && pubkeys[i] == k {
          if k in rest {
            var i :| 0 <= i < |pubkeys[1..]| && i < |accounts[1..]| && accounts[1..][i].None? && pubkeys[1..][i] == k;
            assert accounts[i + 1].None? && pubkeys[i + 1] == k;
          }
        }
      }
      (if accounts[0].None? then [pubkeys[0]] else []) + rest
  }

  // ---------------------------------------------------------------------------
  // Properties of a cycle
  // ---------------------------------------------------------------------------

  /** A label written at position `i` and never again holds the value written there. */
  lemma {:induction false} ApplyWritesLast(store: Store, writes: seq<(Label, nat)>, i: nat)
    requires i < |writes|
    requires forall j :: i < j < |writes| ==> writes[j].0 != writes[i].0
    ensures writes[i].0 in ApplyWrites(store, writes).balances
    ensures ApplyWrites(store, writes).balances[writes[i].0] == writes[i].1
  {
    var n := |writes| - 1;
    var before := ApplyWrites(store, writes[..n]);
    if i < n {
      assert writes[..n][i] == writes[i];
      ApplyWritesLast(store, writes[..n], i);
      assert writes[n].0 != writes[i].0;
      assert writes[n].0 == Label(writes[n].0.name, writes[n].0.pubkey);
    }
  }

  /** A label that is never written keeps its presence and its value. */
  lemma {:induction false} ApplyWritesUntouched(store: Store, writes: seq<(Label, nat)>, l: Label)
    requires forall j :: 0 <= j < |writes| ==> writes[j].0 != l
    ensures l in ApplyWrites(store, writes).balances <==> l in store.balances
    ensures l in store.balances ==> ApplyWrites(store, writes).balances[l] == store.balances[l]
  {
    if |writes| > 0 {
      ApplyWritesUntouched(store, writes[..|writes| - 1], l);
    }
  }

  /** Distinct polled addresses have distinct gauge labels. */
  lemma LabelsDistinct(w: Watcher, show: PubkeyEncoder, i: nat, j: nat)
    requires w.Valid() && Injective(show)
    requires i < |w.pubkeys| && j < |w.pubkeys| && i != j
    ensures LabelAt(w, show, i) != LabelAt(w, show, j)
  {
    assert w.pubkeys[i] != w.pubkeys[j];
  }

  /**
   After a successful cycle, every address with a response entry has its gauge
   set to that entry's lamports, or to 0 when the account does not exist.
   */
  lemma CycleWritesZipped(store: Store, w: Watcher, show: PubkeyEncoder, accounts: seq<Option<Account>>, i: nat)
    requires w.Valid() && Injective(show)
    requires i < |w.pubkeys| && i < |accounts|
    ensures LabelAt(w, show, i) in Cycle(store, w, show, RpcOk(accounts)).balances
    ensures accounts[i].Some? ==>
      Cycle(store, w, show, RpcOk(accounts)).balances[LabelAt(w, show, i)] == accounts[i].value.lamports as nat
    ensures accounts[i].None? ==>
      Cycle(store, w, show, RpcOk(accounts)).balances[LabelAt(w, show, i)] == 0
  {
    var writes := Writes(w, show, accounts);
    forall j | i < j < |writes| ensures writes[j].0 != writes[i].0 {
      LabelsDistinct(w, show, i, j);
    }
    ApplyWritesLast(store, writes, i);
  }

  /** An account the RPC node reports as absent is written as 0, not skipped. */
  lemma CycleAbsentAccountIsZero(store: Store, w: Watcher, show: PubkeyEncoder, accounts: seq<Option<Account>>, i: nat)
    requires w.Valid() && Injective(show)
    requires i < |w.pubkeys| && i < |accounts| && accounts[i] == None
    ensures LabelAt(w, show, i) in Cycle(store, w, show, RpcOk(accounts)).balances
    ensures Cycle(store, w, show, RpcOk(accounts)).balances[LabelAt(w, show, i)] == 0
    ensures w.pubkeys[i] in MissingAccounts(w.pubkeys, accounts)
  {
    CycleWritesZipped(store, w, show, accounts, i);
  }

  /** A label that no zipped pair writes keeps its presence and its value. */
  lemma CycleKeepsOtherLabels(store: Store, w: Watcher, show: PubkeyEncoder, accounts: seq<Option<Account>>, l: Label)
    requires w.Valid()
    requires forall i :: 0 <= i < |w.pubkeys| && i < |accounts| ==> LabelAt(w, show, i) != l
    ensures l in Cycle(store, w, show, RpcOk(accounts)).balances <==> l in store.balances
    ensures l in store.balances ==> Cycle(store, w, show, RpcOk(accounts)).balances[l] == store.balances[l]
  {
    ApplyWritesUntouched(store, Writes(w, show, accounts), l);
  }

  /** Addresses past the end of a short response are not written: the zip stops there. */
  lemma CycleSkipsBeyondResponse(store: Store, w: Watcher, show: PubkeyEncoder, accounts: seq<Option<Account>>, i: nat)
    requires w.Valid() && Injective(show)
    requires |accounts| <= i < |w.pubkeys|
    ensures LabelAt(w, show, i) in Cycle(store, w, show, RpcOk(accounts)).balances
        <==> LabelAt(w, show, i) in store.balances
    ensures LabelAt(w, show, i) in store.balances ==>
      Cycle(store, w, show, RpcOk(accounts)).balances[LabelAt(w, show, i)] == store.balances[LabelAt(w, show, i)]
  {
    forall j | 0 <= j < |w.pubkeys| && j < |accounts| ensures LabelAt(w, show, j) != LabelAt(w, show, i) {
      LabelsDistinct(w, show, i, j);
    }
    CycleKeepsOtherLabels(store, w, show, accounts, LabelAt(w, show, i));
  }

  /** A complete response leaves a gauge for every watched address. */
  lemma CycleCoversAllAddresses(store: Store, w: Watcher, show: PubkeyEncoder, accounts: seq<Option<Account>>)
    requires w.Valid()
    requires |accounts| == |w.pubkeys|
    ensures forall k :: k in w.named ==> Label(w.named[k], show(k)) in Cycle(store, w, show, RpcOk(accounts)).balances
  {
    var writes := Writes(w, show, accounts);
    forall k | k in w.named
      ensures Label(w.named[k], show(k)) in Cycle(store, w, show, RpcOk(accounts)).balances
    {
      var i :| 0 <= i < |w.pubkeys| && w.pubkeys[i] == k;
      assert writes[i].0 == Label(w.named[k], show(k));
    }
  }

  /**
   Two watched addresses answered with 1 SOL (10^9 lamports) and "absent" get
   gauges of 10^9 and 0 lamports, and the absent one is reported.
   */
  lemma CycleExample(store: Store, named: map<Pubkey, string>, show: PubkeyEncoder, a1: Pubkey, a2: Pubkey)
    requires Injective(show)
    requires a1 != a2 && named.Keys == {a1, a2}
    ensures Label(named[a1], show(a1)) in Cycle(store, Watcher(named, [a1, a2]), show, RpcOk([Some(Account(1_000_000_000)), None])).balances
    ensures Label(named[a2], show(a2)) in Cycle(store, Watcher(named, [a1, a2]), show, RpcOk([Some(Account(1_000_000_000)), None])).balances
    ensures Cycle(store, Watcher(named, [a1, a2]), show, RpcOk([Some(Account(1_000_000_000)), None])).balances
         [Label(named[a1], show(a1))] == 1_000_000_000
    ensures Cycle(store, Watcher(named, [a1, a2]), show, RpcOk([Some(Account(1_000_000_000)), None])).balances
         [Label(named[a2], show(a2))] == 0
    ensures MissingAccounts([a1, a2], [Some(Account(1_000_000_000)), None]) == [a2]
  {
    var w := Watcher(named, [a1, a2]);
    var accounts := [Some(Account(1_000_000_000)), None];
    assert w.Valid();
    CycleWritesZipped(store, w, show, accounts, 0);
    CycleWritesZipped(store, w, show, accounts, 1);
    assert [a1, a2][1..] == [a2] && accounts[1..] == [None];
    assert MissingAccounts([a2], [None]) == [a2];
  }
}

=== FILE: cli.dfy ===
/**
 `src/bin/cli.rs`: turning the `--named-address` flags into the watcher's
 address-to-name map, which happens before any task is spawned, and the
 `--program-accounts` flags into configs, in flag order. The configs are
 parsed after the metrics server and the balance watcher have been spawned;
 the model keeps only the outcome of the parse.
 */
module Cli {
  import opened Wrappers
  import opened Solana
  import opened Outcomes
  import ProgramAccounts

  /** One `--named-address name=address` flag, parsed. */
  datatype NamedAddress = NamedAddress(name: string, pubkey: Pubkey)

  /**
   Split a flag at its first `=` and decode the right side; a missing `=` and
   an undecodable address both panic.
   */
  function ParseNamedAddress(entry: string, decode: PubkeyDecoder): (r: Outcome<NamedAddress>)
    ensures !r.Err?
    ensures '=' !in entry <==> r == Panic(MalformedNamedAddress(entry))
    ensures r.Panic? && r.reason.UnparsablePubkey? ==> decode(r.reason.text).None?
    ensures '=' in entry ==> r.Ok? || r.reason.UnparsablePubkey?
    ensures r.Ok? ==> |r.value.name| < |entry| && entry[..|r.value.name|] == r.value.name
                      && entry[|r.value.name|] == '=' && '=' !in r.value.name
                      && decode(entry[|r.value.name| + 1..]) == Some(r.value.pubkey)
  {
    match Text.SplitOnce(entry, '=')
    case None => Panic(MalformedNamedAddress(entry))
    case Some((name, text)) =>
      assert entry[..|name|] == name && entry[|name|] == '=' && entry[|name| + 1..] == text;
      match decode(text)
      case None => Panic(UnparsablePubkey(text))
      case Some(pubkey) => Ok(NamedAddress(name, pubkey))
  }

  /**
   The converse direction: `name=text` with an `=`-free name is accepted as
   that name and the decoded address whenever the text decodes, and panics
   naming the text otherwise.
   */
  lemma ParseNamedAddressOfConcat(name: string, text: string, decode: PubkeyDecoder)
    requires '=' !in name
    ensures ParseNamedAddress(name + "=" + text, decode)
         == if decode(text).Some? then Ok(NamedAddress(name, decode(text).value)) else Panic(UnparsablePubkey(text))
  {
    assert name + "=" + text == name + ['='] + text;
    Text.SplitOnceOfConcat(name, '=', text);
  }

  /**
   Store one parsed flag: an address that is already present panics, whatever
   name it was stored under, even the same one.
   */
  function InsertNamed(acc: map<Pubkey, string>, a: NamedAddress): (r: Outcome<map<Pubkey, string>>)
    ensures !r.Err?
    ensures r.Panic? <==> a.pubkey in acc
    ensures r.Panic? ==> r.reason == DuplicatePubkey(a.pubkey, a.name, acc[a.pubkey])
    ensures r.Ok? ==> r.value.Keys == acc.Keys + {a.pubkey} && r.value[a.pubkey] == a.name
    ensures r.Ok? ==> forall k :: k in acc ==> r.value[k] == acc[k]
    ensures r.Ok? ==> |r.value| == |acc| + 1
  {
    if a.pubkey in acc then Panic(DuplicatePubkey(a.pubkey, a.name, acc[a.pubkey]))
    else Ok(acc[a.pubkey := a.name])
  }

  /** One iteration of the `for named_address in flags.named_addresses` loop. */
  function AddEntry(acc: map<Pubkey, string>, entry: string, decode: PubkeyDecoder): (r: Outcome<map<Pubkey, string>>)
    ensures !r.Err?
    ensures r.Ok? <==> ParseNamedAddress(entry, decode).Ok? && ParseNamedAddress(entry, decode).value.pubkey !in acc
    ensures !ParseNamedAddress(entry, decode).Ok? ==> r.reason == ParseNamedAddress(entry, decode).reason
    ensures r.Ok? ==> var a := ParseNamedAddress(entry, decode).value;
      r.value == acc[a.pubkey := a.name]
    ensures r.Ok? ==> r.value.Keys == acc.Keys + {ParseNamedAddress(entry, decode).value.pubkey}
  {
    var parsed := ParseNamedAddress(entry, decode);
    if parsed.Ok? then InsertNamed(acc, parsed.value) else Panic(parsed.reason)
  }

  /** The whole loop, starting from the empty map. */
  function BuildNamedPubkeys(entries: seq<string>, decode: PubkeyDecoder): (r: Outcome<map<Pubkey, string>>)
    ensures !r.Err?
    ensures r.Ok? ==> |r.value| == |entries|
  {
    if |entries| == 0 then Ok(map[])
    else
      var before := BuildNamedPubkeys(entries[..|entries| - 1], decode);
      if before.Ok? then AddEntry(before.value, entries[|entries| - 1], decode) else before
  }

  /** Every flag has an `=` and a decodable address. */
  predicate AllParse(entries: seq<string>, decode: PubkeyDecoder)
  {
    forall i :: 0 <= i < |entries| ==> ParseNamedAddress(entries[i], decode).Ok?
  }

  /** The parsed flags, in flag order. */
  function Addresses(entries: seq<string>, decode: PubkeyDecoder): (r: seq<NamedAddress>)
    requires AllParse(entries, decode)
    ensures |r| == |entries|
    ensures forall i :: 0 <= i < |entries| ==> ParseNamedAddress(entries[i], decode) == Ok(r[i])
  {
    if |entries| == 0 then []
    else
      var n := |entries| - 1;
      assert AllParse(entries[..n], decode) by {
        forall i | 0 <= i < n ensures ParseNamedAddress(entries[..n][i], decode).Ok? {
          assert entries[..n][i] == entries[i];
        }
      }
      var init := Addresses(entries[..n], decode);
      var r := init + [ParseNamedAddress(entries[n], decode).value];
      assert forall i :: 0 <= i < |entries| ==> ParseNamedAddress(entries[i], decode) == Ok(r[i]) by {
        forall i | 0 <= i < |entries| ensures ParseNamedAddress(entries[i], decode) == Ok(r[i]) {
          if i < n {
            assert entries[..n][i] == entries[i] && r[i] == init[i];
          }
        }
      }
      r
  }

  /** No address occurs twice. */
  predicate Distinct(addrs: seq<NamedAddress>)
  {
    forall i, j :: 0 <= i < j < |addrs| ==> addrs[i].pubkey != addrs[j].pubkey
  }

  /** Each address maps to its name, and nothing else is stored. */
  predicate Describes(addrs: seq<NamedAddress>, m: map<Pubkey, string>)
  {
    && (forall i :: 0 <= i < |addrs| ==> addrs[i].pubkey in m && m[addrs[i].pubkey] == addrs[i].name)
    && (forall k :: k in m ==> exists i :: 0 <= i < |addrs| && addrs[i].pubkey == k)
  }

  /**
   The loop succeeds exactly when every flag parses and no address repeats;
   the map then sends each flag's address to that flag's name and holds
   nothing else.
   */
  lemma {:induction false} BuildNamedPubkeysSpec(entries: seq<string>, decode: PubkeyDecoder)
    ensures BuildNamedPubkeys(entries, decode).Ok? <==>
      AllParse(entries, decode) && Distinct(Addresses(entries, decode))
    ensures BuildNamedPubkeys(entries, decode).Ok? ==>
      Describes(Addresses(entries, decode), BuildNamedPubkeys(entries, decode).value)
  {
    if |entries| > 0 {
      var n := |entries| - 1;
      var prefix := entries[..n];
      BuildNamedPubkeysSpec(prefix, decode);
      AllParseLast(entries, decode);
      var before := BuildNamedPubkeys(prefix, decode);
      var parsed := ParseNamedAddress(entries[n], decode);
      if before.Ok? && parsed.Ok? {
        assert Addresses(entries, decode) == Addresses(prefix, decode) + [parsed.value];
        InsertSpec(Addresses(prefix, decode), parsed.value, before.value);
      } else if !before.Ok? && AllParse(entries, decode) {
        assert Addresses(entries, decode) == Addresses(prefix, decode) + [parsed.value];
        DistinctPrefix(Addresses(prefix, decode), parsed.value);
      }
    }
  }

  /** All flags parse iff the earlier ones and the last one do. */
  lemma AllParseLast(entries: seq<string>, decode: PubkeyDecoder)
    requires |entries| > 0
    ensures AllParse(entries, decode) <==>
      AllParse(entries[..|entries| - 1], decode) && ParseNamedAddress(entries[|entries| - 1], decode).Ok?
  {
    var prefix := entries[..|entries| - 1];
    assert forall i :: 0 <= i < |prefix| ==> entries[i] == prefix[i];
  }

  /** Storing one more address into a map that describes distinct addresses. */
  lemma InsertSpec(addrs: seq<NamedAddress>, a: NamedAddress, m: map<Pubkey, string>)
    requires Distinct(addrs) && Describes(addrs, m)
    ensures a.pubkey in m <==> !Distinct(addrs + [a])
    ensures a.pubkey !in m ==> Describes(addrs + [a], m[a.pubkey := a.name])
  {
    var all := addrs + [a];
    var n := |addrs|;
    assert all[n] == a;
    if a.pubkey in m {
      var i :| 0 <= i < n && addrs[i].pubkey == a.pubkey;
      assert all[i].pubkey == all[n].pubkey;
    } else {
      forall i, j | 0 <= i < j < |all| ensures all[i].pubkey != all[j].pubkey {
        assert all[i] == addrs[i];
        if j < n { assert all[j] == addrs[j]; }
      }
      var r := m[a.pubkey := a.name];
      forall i | 0 <= i < |all| ensures all[i].pubkey in r && r[all[i].pubkey] == all[i].name {
        if i < n { assert all[i] == addrs[i]; }
      }
      forall k | k in r ensures exists i :: 0 <= i < |all| && all[i].pubkey == k {
        if k in m {
          var i :| 0 <= i < n && addrs[i].pubkey == k;
          assert all[i] == addrs[i];
        } else {
          assert all[n].pubkey == k;
        }
      }
    }
  }

  /** A repeat among the earlier addresses is still a repeat with one more. */
  lemma DistinctPrefix(addrs: seq<NamedAddress>, a: NamedAddress)
    ensures Distinct(addrs + [a]) ==> Distinct(addrs)
  {
    var all := addrs + [a];
    forall i, j | 0 <= i < j < |addrs| && Distinct(all) ensures addrs[i].pubkey != addrs[j].pubkey {
      assert all[i] == addrs[i] && all[j] == addrs[j];
    }
  }

  /** An address repeated in two flags aborts start-up, even under the same name. */
  lemma RepeatedAddressPanics(entries: seq<string>, decode: PubkeyDecoder, i: nat, j: nat)
    requires i < j < |entries|
    requires ParseNamedAddress(entries[i], decode).Ok? && ParseNamedAddress(entries[j], decode).Ok?
    requires ParseNamedAddress(entries[i], decode).value.pubkey == ParseNamedAddress(entries[j], decode).value.pubkey
    ensures BuildNamedPubkeys(entries, decode).Panic?
  {
    BuildNamedPubkeysSpec(entries, decode);
    if AllParse(entries, decode) {
      assert Addresses(entries, decode)[i].pubkey == Addresses(entries, decode)[j].pubkey;
    }
  }

  /** The same flag given twice panics, naming the address and the (identical) previous name. */
  lemma SameEntryTwicePanics(entry: string, decode: PubkeyDecoder)
    requires ParseNamedAddress(entry, decode).Ok?
    ensures BuildNamedPubkeys([entry, entry], decode)
         == Panic(DuplicatePubkey(ParseNamedAddress(entry, decode).value.pubkey,
                                  ParseNamedAddress(entry, decode).value.name,
                                  ParseNamedAddress(entry, decode).value.name))
  {
    var entries := [entry, entry];
    assert entries[..1] == [entry] && [entry][..0] == [];
    assert BuildNamedPubkeys([], decode) == Ok(map[]);
    var one := BuildNamedPubkeys([entry], decode);
    assert one == Ok(map[ParseNamedAddress(entry, decode).value.pubkey := ParseNamedAddress(entry, decode).value.name]);
  }

  /** Once a flag has failed, the flags after it are never looked at. */
  lemma {:induction false} BuildNamedPubkeysStopsAtFailure(entries: seq<string>, decode: PubkeyDecoder, k: nat)
    requires k <= |entries|
    requires !BuildNamedPubkeys(entries[..k], decode).Ok?
    ensures BuildNamedPubkeys(entries, decode) == BuildNamedPubkeys(entries[..k], decode)
    decreases |entries| - k
  {
    if k < |entries| {
      var n := |entries| - 1;
      assert entries[..n][..k] == entries[..k];
      BuildNamedPubkeysStopsAtFailure(entries[..n], decode, k);
      BuildAfterFailure(entries, decode);
    } else {
      assert entries[..k] == entries;
    }
  }

  /** One step of the fold: a failed prefix is passed through unchanged. */
  lemma BuildAfterFailure(entries: seq<string>, decode: PubkeyDecoder)
    requires 0 < |entries|
    ensures !BuildNamedPubkeys(entries[..|entries| - 1], decode).Ok? ==>
      BuildNamedPubkeys(entries, decode) == BuildNamedPubkeys(entries[..|entries| - 1], decode)
  {
  }

  /**
   When the flags before `i` all parse to distinct addresses, flag `i` decides
   the outcome if it fails: an unparsable flag panics with its own reason, and
   an address already given panics naming the earlier flag's name.
   */
  lemma BuildNamedPubkeysFirstFailure(entries: seq<string>, decode: PubkeyDecoder, i: nat)
    requires i < |entries| && AllParse(entries[..i], decode) && Distinct(Addresses(entries[..i], decode))
    ensures !ParseNamedAddress(entries[i], decode).Ok? ==>
      BuildNamedPubkeys(entries, decode) == Panic(ParseNamedAddress(entries[i], decode).reason)
    ensures forall j ::
      (0 <= j < i && ParseNamedAddress(entries[i], decode).Ok?
       && Addresses(entries[..i], decode)[j].pubkey == ParseNamedAddress(entries[i], decode).value.pubkey) ==>
      BuildNamedPubkeys(entries, decode)
        == Panic(DuplicatePubkey(ParseNamedAddress(entries[i], decode).value.pubkey,
                                 ParseNamedAddress(entries[i], decode).value.name,
                                 Addresses(entries[..i], decode)[j].name))
  {
    var prefix := entries[..i];
    var parsed := ParseNamedAddress(entries[i], decode);
    BuildNamedPubkeysSpec(prefix, decode);
    BuildNamedPubkeysNext(entries, decode, i);
    if !parsed.Ok? {
      BuildNamedPubkeysStopsAtFailure(entries, decode, i + 1);
    } else {
      var m := BuildNamedPubkeys(prefix, decode).value;
      forall j | 0 <= j < i && Addresses(prefix, decode)[j].pubkey == parsed.value.pubkey
        ensures BuildNamedPubkeys(entries, decode)
             == Panic(DuplicatePubkey(parsed.value.pubkey, parsed.value.name, Addresses(prefix, decode)[j].name))
      {
        assert m[parsed.value.pubkey] == Addresses(prefix, decode)[j].name;
        BuildNamedPubkeysStopsAtFailure(entries, decode, i + 1);
      }
    }
  }

  /** The fold over the first `i + 1` flags is one more step after the first `i`. */
  lemma BuildNamedPubkeysNext(entries: seq<string>, decode: PubkeyDecoder, i: nat)
    requires i < |entries|
    ensures BuildNamedPubkeys(entries[..i + 1], decode)
         == (var before := BuildNamedPubkeys(entries[..i], decode);
             if before.Ok? then AddEntry(before.value, entries[i], decode) else before)
  {
    assert entries[..i + 1][..i] == entries[..i];
  }

  /** The `--program-accounts` flags parsed in flag order; the first failure ends start-up. */
  function ParseConfigs(configs: seq<string>, decode: PubkeyDecoder): (r: Outcome<seq<ProgramAccounts.Config>>)
    ensures r.Ok? <==> forall i :: 0 <= i < |configs| ==> ProgramAccounts.ParseConfig(configs[i], decode).Ok?
    ensures r.Ok? ==> |r.value| == |configs|
    ensures r.Ok? ==> forall i :: 0 <= i < |configs| ==> ProgramAccounts.ParseConfig(configs[i], decode) == Ok(r.value[i])
    ensures !r.Ok? ==>
      exists i :: FirstFailureAt(configs, s => ProgramAccounts.ParseConfig(s, decode), i)
        && r == ProgramAccounts.ParseConfig(configs[i], decode).Cast()
  {
    var parse := s => ProgramAccounts.ParseConfig(s, decode);
    var r := ParseAll(configs, parse);
    assert !r.Ok? ==> exists i :: FirstFailureAt(configs, parse, i) && r == parse(configs[i]).Cast();
    r
  }

  /** A config flag after the first failing one is never parsed: appending flags changes nothing. */
  lemma ParseConfigsIgnoresLaterFlags(configs: seq<string>, later: seq<string>, decode: PubkeyDecoder)
    ensures !ParseConfigs(configs, decode).Ok? ==> ParseConfigs(configs + later, decode) == ParseConfigs(configs, decode)
  {
    ParseAllIgnoresLaterInput(configs, later, s => ProgramAccounts.ParseConfig(s, decode));
  }

  /** What `main` hands to the watchers once every flag has been accepted. */
  datatype Plan = Plan(named: map<Pubkey, string>, programs: seq<ProgramAccounts.Config>)

  /**
   Start-up: the named addresses are processed first (a failure there panics
   before any config is read), then the program-accounts configs in order.
   */
  function Startup(entries: seq<string>, configs: seq<string>, decode: PubkeyDecoder): (r: Outcome<Plan>)
    ensures !BuildNamedPubkeys(entries, decode).Ok? ==> r.Panic? && r.reason == BuildNamedPubkeys(entries, decode).reason
    ensures r.Ok? <==> BuildNamedPubkeys(entries, decode).Ok? && ParseConfigs(configs, decode).Ok?
    ensures r.Ok? ==> r.value.named == BuildNamedPubkeys(entries, decode).value
                      && r.value.programs == ParseConfigs(configs, decode).value
    ensures BuildNamedPubkeys(entries, decode).Ok? && !r.Ok? ==> r == ParseConfigs(configs, decode).Cast()
  {
    var named := BuildNamedPubkeys(entries, decode);
    if !named.Ok? then Panic(named.reason)
    else
      var programs := ParseConfigs(configs, decode);
      if programs.Ok? then Ok(Plan(named.value, programs.value)) else programs.Cast()
  }
}

=== FILE: metrics.dfy ===
/**
 The two Prometheus gauge vectors the watchers write, as one immutable store
 value: `balance_sol` labelled by `(name, pubkey)` and `total_balance_sol`
 labelled by `name`. Values are kept in lamports; the division by 10^9 that
 turns them into SOL is not modelled.
 */
module Metrics {

  /** The label pair of one `balance_sol` gauge. */
  datatype Label = Label(name: string, pubkey: string)

  datatype Store = Store(balances: map<Label, nat>, totals: map<string, nat>)

  /** `update_metric_balance_sol`: upsert of the gauge labelled `(name, pubkey)`. */
  function UpdateBalance(s: Store, name: string, pubkey: string, value: nat): (r: Store)
    ensures Label(name, pubkey) in r.balances && r.balances[Label(name, pubkey)] == value
    ensures r.balances.Keys == s.balances.Keys + {Label(name, pubkey)}
    ensures forall l :: l in s.balances && l != Label(name, pubkey) ==> r.balances[l] == s.balances[l]
    ensures r.totals == s.totals
  {
    s.(balances := s.balances[Label(name, pubkey) := value])
  }

  /** `update_metric_total_balance_sol`: upsert of the gauge labelled `name`. */
  function UpdateTotal(s: Store, name: string, value: nat): (r: Store)
    ensures name in r.totals && r.totals[name] == value
    ensures r.totals.Keys == s.totals.Keys + {name}
    ensures forall n :: n in s.totals && n != name ==> r.totals[n] == s.totals[n]
    ensures r.balances == s.balances
  {
    s.(totals := s.totals[name := value])
  }

  /** `reset_metric_balance_sol`: drops every `balance_sol` gauge. */
  function ResetBalances(s: Store): (r: Store)
    ensures |r.balances| == 0
    ensures r.totals == s.totals
  {
    s.(balances := map[])
  }

  /**
   `remove_metric_total_balance_sol`: drops the one `total_balance_sol` gauge
   labelled `name`; the "not found" error of `remove_label_values` is
   discarded, so removing an absent label changes nothing.
   */
  function RemoveTotal(s: Store, name: string): (r: Store)
    ensures r.totals.Keys == s.totals.Keys - {name}
    ensures forall n :: n in r.totals ==> r.totals[n] == s.totals[n]
    ensures r.balances == s.balances
  {
    s.(totals := map n | n in s.totals && n != name :: s.totals[n])
  }

  /** Writing the same balance twice is the same as writing it once. */
  lemma UpdateBalanceIdempotent(s: Store, name: string, pubkey: string, value: nat)
    ensures UpdateBalance(UpdateBalance(s, name, pubkey, value), name, pubkey, value)
         == UpdateBalance(s, name, pubkey, value)
  {
    var once := UpdateBalance(s, name, pubkey, value);
    var twice := UpdateBalance(once, name, pubkey, value);
    assert twice.balances == once.balances;
  }

  /** Writing the same total twice is the same as writing it once. */
  lemma UpdateTotalIdempotent(s: Store, name: string, value: nat)
    ensures UpdateTotal(UpdateTotal(s, name, value), name, value) == UpdateTotal(s, name, value)
  {
    var once := UpdateTotal(s, name, value);
    assert UpdateTotal(once, name, value).totals == once.totals;
  }

  /** Removing a total that is not there leaves the store as it was. */
  lemma RemoveAbsentTotalIsNoOp(s: Store, name: string)
    requires name !in s.totals
    ensures RemoveTotal(s, name) == s
  {
    assert RemoveTotal(s, name).totals == s.totals;
  }

  /** A removed total stays removed: removal is idempotent. */
  lemma RemoveTotalIdempotent(s: Store, name: string)
    ensures RemoveTotal(RemoveTotal(s, name), name) == RemoveTotal(s, name)
  {
    RemoveAbsentTotalIsNoOp(RemoveTotal(s, name), name);
  }
}

=== FILE: outcomes.dfy ===
/**
 How a configuration parse ends. The source distinguishes an error value
 returned through `anyhow::Result` (which `main` propagates with `?`) from a
 panic raised by `expect`/`panic!` (which the installed panic hook turns into
 `process::exit(1)`); the model keeps the two apart.
 */
module Outcomes {
  import opened Text
  import opened Solana

  /**
   The messages of `anyhow::bail!`, and a propagated `ParseIntError`, which
   carries only its kind and not the text that failed.
   */
  datatype ParseError =
    | MalformedParameter(param: string)        // filter token without ':'
    | UnsupportedParameterType(key: string)    // filter kind other than b58/size
    | MalformedMemcmp(param: string)           // b58 payload without a second ':'
    | InvalidInteger(kind: IntErrorKind)       // `str::parse::<u64>` failed, with its `ParseIntError` kind
    | MissingNameSeparator                     // config without '='
    | ProgramIdNotFound                        // config whose params split into nothing

  /** Why a parse panicked instead of returning an error. */
  datatype PanicReason =
    | UnparsableProgramId(text: string)
    | UnparsablePubkey(text: string)
    | DuplicatePubkey(pubkey: Pubkey, name: string, previous: string)
    | MalformedNamedAddress(entry: string)

  datatype Outcome<+T> = Ok(value: T) | Err(error: ParseError) | Panic(reason: PanicReason)
  {
    /** The same failure, carried by an outcome of another value type. */
    function Cast<U>(): (r: Outcome<U>)
      requires !Ok?
      ensures Err? <==> r.Err?
      ensures Err? ==> r.error == error
      ensures Panic? ==> r.Panic? && r.reason == reason
    {
      if Err? then Err(error) else Panic(reason)
    }
  }

  /** `xs[i]` is the first element on which `f` fails. */
  ghost predicate FirstFailureAt<A, B>(xs: seq<A>, f: A -> Outcome<B>, i: int)
  {
    && 0 <= i < |xs|
    && !f(xs[i]).Ok?
    && forall j :: 0 <= j < i ==> f(xs[j]).Ok?
  }

  /**
   Parse every element in order, stopping at the first failure: the
   `for x in xs { out.push(f(x)?) }` loop and the `?` on each config in `main`.
   */
  function ParseAll<A, B>(xs: seq<A>, f: A -> Outcome<B>): (r: Outcome<seq<B>>)
    ensures r.Ok? <==> forall i :: 0 <= i < |xs| ==> f(xs[i]).Ok?
    ensures r.Ok? ==> |r.value| == |xs| && forall i :: 0 <= i < |xs| ==> f(xs[i]) == Ok(r.value[i])
    ensures !r.Ok? ==> exists i :: FirstFailureAt(xs, f, i) && r == f(xs[i]).Cast()
  {
    if |xs| == 0 then Ok([])
    else
      match f(xs[0])
      case Ok(y) =>
        var rest := ParseAll(xs[1..], f);
        if rest.Ok? then
          assert forall i :: 1 <= i < |xs| ==> xs[i] == xs[1..][i - 1];
          Ok([y] + rest.value)
        else
          assert exists k :: FirstFailureAt(xs, f, k) && rest == f(xs[k]).Cast() by {
            var i :| FirstFailureAt(xs[1..], f, i) && rest == f(xs[1..][i]).Cast();
            assert FirstFailureAt(xs, f, i + 1);
          }
          rest
      case _ =>
        assert FirstFailureAt(xs, f, 0);
        f(xs[0]).Cast()
  }

  /** One step of `ParseAll`: the head is parsed first, then the tail. */
  lemma ParseAllCons<A, B>(x: A, xs: seq<A>, f: A -> Outcome<B>)
    ensures ParseAll([x] + xs, f)
         == if !f(x).Ok? then f(x).Cast()
            else if ParseAll(xs, f).Ok? then Ok([f(x).value] + ParseAll(xs, f).value)
            else ParseAll(xs, f)
  {
    assert ([x] + xs)[0] == x;
    assert ([x] + xs)[1..] == xs;
  }

  /** Two elements that both parse. */
  lemma ParseAllTwo<A, B>(x: A, y: A, f: A -> Outcome<B>)
    requires f(x).Ok? && f(y).Ok?
    ensures ParseAll([x, y], f) == Ok([f(x).value, f(y).value])
  {
    assert ParseAll([], f) == Ok([]);
    ParseAllCons(y, [], f);
    assert [y] + [] == [y];
    assert [f(y).value] + [] == [f(y).value];
    assert ParseAll([y], f) == Ok([f(y).value]);
    ParseAllCons(x, [y], f);
    assert [x] + [y] == [x, y];
    assert [f(x).value] + [f(y).value] == [f(x).value, f(y).value];
  }

  /** Elements after the first failure are never looked at. */
  lemma {:induction false} ParseAllIgnoresLaterInput<A, B>(xs: seq<A>, ys: seq<A>, f: A -> Outcome<B>)
    ensures !ParseAll(xs, f).Ok? ==> ParseAll(xs + ys, f) == ParseAll(xs, f)
    decreases |xs|
  {
    if |xs| > 0 {
      var x, rest := xs[0], xs[1..];
      assert xs == [x] + rest;
      assert xs + ys == [x] + (rest + ys);
      ParseAllIgnoresLaterInput(rest, ys, f);
      IgnoresLaterStep(x, rest, ys, f);
    }
  }

  /** The induction step of `ParseAllIgnoresLaterInput`: one more element in front. */
  lemma IgnoresLaterStep<A, B>(x: A, rest: seq<A>, ys: seq<A>, f: A -> Outcome<B>)
    requires !ParseAll(rest, f).Ok? ==> ParseAll(rest + ys, f) == ParseAll(rest, f)
    ensures !ParseAll([x] + rest, f).Ok? ==> ParseAll([x] + (rest + ys), f) == ParseAll([x] + rest, f)
  {
    ParseAllCons(x, rest, f);
    ParseAllCons(x, rest + ys, f);
  }
}

=== FILE: program_accounts.dfy ===
/**
 `src/program_accounts_balance.rs`: the filter mini-language, the
 `name=program tok1 tok2 ...` configuration parser, and one cycle of the
 program-accounts watcher as a transformation of the metrics store.
 */
module ProgramAccounts {
  import opened Wrappers
  import opened Text
  import opened Solana
  import opened Outcomes
  import opened Metrics

  /**
   `RpcFilterType`, restricted to the two variants the parser builds. The
   base58 payload of a memcmp filter is kept as the text the operator wrote;
   it is never decoded here.
   */
  datatype Filter = Memcmp(offset: u64, base58: string) | DataSize(size: u64)

  /** `ProgramAccountsBalanceConfig`. */
  datatype Config = Config(name: string, program: Pubkey, filters: seq<Filter>)

  /** The errors a filter token can produce. */
  predicate IsFilterError(e: ParseError)
  {
    e.MalformedParameter? || e.UnsupportedParameterType? || e.MalformedMemcmp? || e.InvalidInteger?
  }

  /** `parse_data_size_filter_type`. */
  function ParseDataSize(text: string): (r: Outcome<Filter>)
    ensures ParseU64(text).Success? ==> r == Ok(DataSize(ParseU64(text).value))
    ensures ParseU64(text).Failure? ==> r == Err(InvalidInteger(ParseU64(text).error))
  {
    match ParseU64(text)
    case Success(n) => Ok(DataSize(n))
    case Failure(kind) => Err(InvalidInteger(kind))
  }

  /** `parse_memcmp_base58_filter_type`: `<offset>:<payload>`, split at the first ':'. */
  function ParseMemcmp(text: string): (r: Outcome<Filter>)
    ensures !r.Panic?
    ensures ':' !in text ==> r == Err(MalformedMemcmp(text))
    ensures r.Err? ==> r.error.MalformedMemcmp? || r.error.InvalidInteger?
    ensures r.Ok? ==> r.value.Memcmp?
  {
    match SplitOnce(text, ':')
    case None => Err(MalformedMemcmp(text))
    case Some((offset, payload)) =>
      match ParseU64(offset)
      case Success(n) => Ok(Memcmp(n, payload))
      case Failure(kind) => Err(InvalidInteger(kind))
  }

  /** `parse_rpc_filter_type`: `<kind>:<value>`, split at the first ':'. */
  function ParseFilter(param: string): (r: Outcome<Filter>)
    ensures !r.Panic?
    ensures r.Err? ==> IsFilterError(r.error)
    ensures ':' !in param ==> r == Err(MalformedParameter(param))
  {
    match SplitOnce(param, ':')
    case None => Err(MalformedParameter(param))
    case Some((key, value)) =>
      if key == "b58" then ParseMemcmp(value)
      else if key == "size" then ParseDataSize(value)
      else Err(UnsupportedParameterType(key))
  }

  /** The filter tokens of a config, parsed in order, stopping at the first bad one. */
  function ParseFilters(params: seq<string>): (r: Outcome<seq<Filter>>)
    ensures !r.Panic?
    ensures r.Err? ==> IsFilterError(r.error)
    ensures r.Ok? <==> forall i :: 0 <= i < |params| ==> ParseFilter(params[i]).Ok?
    ensures r.Ok? ==> |r.value| == |params|
    ensures r.Ok? ==> forall i :: 0 <= i < |params| ==> ParseFilter(params[i]) == Ok(r.value[i])
  {
    ParseAll(params, ParseFilter)
  }

  /** `ProgramAccountsBalanceConfig::from_str`. */
  function ParseConfig(s: string, decode: PubkeyDecoder): (r: Outcome<Config>)
    ensures '=' !in s <==> r == Err(MissingNameSeparator)
    ensures r != Err(ProgramIdNotFound)
    ensures r.Ok? ==> |r.value.name| < |s| && s[..|r.value.name|] == r.value.name
                      && s[|r.value.name|] == '=' && '=' !in r.value.name
    ensures r.Panic? ==> r.reason.UnparsableProgramId? && decode(r.reason.text).None?
    ensures r.Err? && r.error != MissingNameSeparator ==> IsFilterError(r.error)
  {
    match SplitOnce(s, '=')
    case None => Err(MissingNameSeparator)
    case Some((name, params)) =>
      assert s[..|name|] == name && s[|name|] == '=';
      var pieces := Split(params, ' ');
      if |pieces| == 0 then Err(ProgramIdNotFound)
      else
        match decode(pieces[0])
        case None => Panic(UnparsableProgramId(pieces[0]))
        case Some(program) =>
          var filters := ParseFilters(pieces[1..]);
          if filters.Ok? then Ok(Config(name, program, filters.value))
          else Err(filters.error)
  }

  /** Sum of the lamports of the returned accounts (as an unbounded integer). */
  function TotalLamports(accounts: seq<(Pubkey, Account)>): (r: nat)
    ensures |accounts| == 0 ==> r == 0
    ensures r <= |accounts| * (U64_LIMIT - 1)
  {
    if |accounts| == 0 then 0
    else accounts[0].1.lamports as nat + TotalLamports(accounts[1..])
  }

  /**
   One cycle of `spawn_program_accounts_balance_watcher` after the RPC call:
   a transport error removes this config's total gauge; a response writes the
   sum of the returned lamports as this config's total.
   */
  function Cycle(store: Store, config: Config, response: RpcResponse<seq<(Pubkey, Account)>>): (r: Store)
    ensures r.balances == store.balances
    ensures response.RpcOk? ==> config.name in r.totals && r.totals[config.name] == TotalLamports(response.value)
    ensures response.RpcErr? ==> config.name !in r.totals
    ensures forall n :: n != config.name ==> (n in r.totals <==> n in store.totals)
    ensures forall n :: n != config.name && n in store.totals ==> r.totals[n] == store.totals[n]
  {
    match response
    case RpcErr => RemoveTotal(store, config.name)
    case RpcOk(accounts) => UpdateTotal(store, config.name, TotalLamports(accounts))
  }

  // ---------------------------------------------------------------------------
  // Filter tokens
  // ---------------------------------------------------------------------------

  /** A kind other than `b58` or `size` is rejected, naming the kind. */
  lemma FilterUnsupportedKind(key: string, value: string)
    requires ':' !in key && key != "b58" && key != "size"
    ensures ParseFilter(key + ":" + value) == Err(UnsupportedParameterType(key))
  {
    SplitOnceOfConcat(key, ':', value);
  }

  /** `size:<n>` succeeds exactly when `<n>` is a `u64`, and then carries that number. */
  lemma FilterDataSize(text: string)
    ensures ParseFilter("size:" + text)
         == (if ParseU64(text).Success? then Ok(DataSize(ParseU64(text).value)) else Err(InvalidInteger(ParseU64(text).error)))
  {
    assert "size:" + text == "size" + [':'] + text;
    SplitOnceOfConcat("size", ':', text);
  }

  /** `size:<n>` with `<n>` written in decimal yields exactly `DataSize(n)`. */
  lemma FilterDataSizeRoundTrip(n: u64)
    ensures ParseFilter("size:" + FormatDecimal(n as nat)) == Ok(DataSize(n))
  {
    FilterDataSize(FormatDecimal(n as nat));
    ParseFormatRoundTrip(n);
  }

  /** A negative size is rejected: the `-` is an invalid digit for an unsigned parse. */
  lemma FilterDataSizeRejectsNegative(digits: string)
    ensures ParseFilter("size:" + ("-" + digits)) == Err(InvalidInteger(InvalidDigit))
  {
    FilterDataSize("-" + digits);
  }

  /**
   `b58:<offset>:<payload>` yields a memcmp filter at the parsed offset whose
   payload is the rest of the token verbatim, `:` characters included.
   */
  lemma FilterMemcmpRoundTrip(offset: string, n: u64, payload: string)
    requires ParseU64(offset) == Success(n)
    ensures ParseFilter("b58:" + offset + ":" + payload) == Ok(Memcmp(n, payload))
  {
    var value := offset + ":" + payload;
    assert "b58:" + offset + ":" + payload == "b58" + [':'] + value;
    SplitOnceOfConcat("b58", ':', value);
    assert ':' !in offset by {
      forall i | 0 <= i < |offset| ensures offset[i] != ':' {
        assert IsDigit(offset[i]) || offset[i] == '+';
      }
    }
    SplitOnceOfConcat(offset, ':', payload);
  }

  /** A `b58` value without a second `:` is rejected. */
  lemma FilterMemcmpMissingSecondColon(rest: string)
    requires ':' !in rest
    ensures ParseFilter("b58:" + rest) == Err(MalformedMemcmp(rest))
  {
    assert "b58:" + rest == "b58" + [':'] + rest;
    SplitOnceOfConcat("b58", ':', rest);
  }

  /** A `b58` offset that is not a `u64` is rejected with the kind of the integer error. */
  lemma FilterMemcmpBadOffset(offset: string, payload: string)
    requires ':' !in offset && ParseU64(offset).Failure?
    ensures ParseFilter("b58:" + offset + ":" + payload) == Err(InvalidInteger(ParseU64(offset).error))
  {
    var value := offset + ":" + payload;
    assert "b58:" + offset + ":" + payload == "b58" + [':'] + value;
    SplitOnceOfConcat("b58", ':', value);
    SplitOnceOfConcat(offset, ':', payload);
  }

  // ---------------------------------------------------------------------------
  // Configuration strings
  // ---------------------------------------------------------------------------

  /**
   `name=program t1 ... tk` with a name free of `=` and space-free program and
   tokens: the program text goes to the decoder (a panic when it fails), and
   otherwise the name is recovered and the tokens become the filters, in order,
   or the first token's failure is the result.
   */
  lemma ConfigRoundTrip(name: string, program: string, tokens: seq<string>, decode: PubkeyDecoder)
    requires '=' !in name && ' ' !in program
    requires forall i :: 0 <= i < |tokens| ==> ' ' !in tokens[i]
    ensures decode(program).None? ==>
      ParseConfig(name + "=" + Join([program] + tokens, ' '), decode) == Panic(UnparsableProgramId(program))
    ensures decode(program).Some? && ParseFilters(tokens).Ok? ==>
      ParseConfig(name + "=" + Join([program] + tokens, ' '), decode)
        == Ok(Config(name, decode(program).value, ParseFilters(tokens).value))
    ensures decode(program).Some? && !ParseFilters(tokens).Ok? ==>
      ParseConfig(name + "=" + Join([program] + tokens, ' '), decode) == ParseFilters(tokens).Cast()
  {
    var parts := [program] + tokens;
    var params := Join(parts, ' ');
    assert forall i :: 0 <= i < |parts| ==> ' ' !in parts[i] by {
      forall i | 0 <= i < |parts| ensures ' ' !in parts[i] {
        if i > 0 { assert parts[i] == tokens[i - 1]; }
      }
    }
    SplitOfJoin(parts, ' ');
    assert name + "=" + params == name + ['='] + params;
    SplitOnceOfConcat(name, '=', params);
    assert parts[1..] == tokens;
  }

  /** A config whose program decodes fails with an error as soon as any one filter token is bad. */
  lemma ConfigBadTokenFails(name: string, program: string, tokens: seq<string>, decode: PubkeyDecoder, j: nat)
    requires '=' !in name && ' ' !in program
    requires forall i :: 0 <= i < |tokens| ==> ' ' !in tokens[i]
    requires decode(program).Some?
    requires j < |tokens| && !ParseFilter(tokens[j]).Ok?
    ensures ParseConfig(name + "=" + Join([program] + tokens, ' '), decode).Err?
  {
    ConfigRoundTrip(name, program, tokens, decode);
  }

  /**
   An empty token, which a doubled or trailing space produces, is malformed,
   so such a config always fails with an error.
   */
  lemma ConfigEmptyTokenFails(name: string, program: string, tokens: seq<string>, decode: PubkeyDecoder, j: nat)
    requires '=' !in name && ' ' !in program
    requires forall i :: 0 <= i < |tokens| ==> ' ' !in tokens[i]
    requires decode(program).Some?
    requires j < |tokens| && tokens[j] == ""
    ensures ParseFilter("") == Err(MalformedParameter(""))
    ensures ParseConfig(name + "=" + Join([program] + tokens, ' '), decode).Err?
  {
    ConfigBadTokenFails(name, program, tokens, decode, j);
  }

  /** A single trailing space after the program id already makes the config fail. */
  lemma ConfigTrailingSpaceFails(name: string, program: string, decode: PubkeyDecoder)
    requires '=' !in name && ' ' !in program
    requires decode(program).Some?
    ensures ParseConfig(name + "=" + program + " ", decode) == Err(MalformedParameter(""))
  {
    ConfigRoundTrip(name, program, [""], decode);
    TrailingSpaceText(name, program);
    EmptyTokenFilter();
  }

  lemma TrailingSpaceText(name: string, program: string)
    ensures name + "=" + program + " " == name + "=" + Join([program] + [""], ' ')
  {
    assert ([program] + [""])[1..] == [""];
    assert Join([program] + [""], ' ') == program + " ";
  }

  /** A lone empty token is a malformed filter. */
  lemma EmptyTokenFilter()
    ensures ParseFilters([""]) == Err(MalformedParameter(""))
  {
    assert ParseFilter("") == Err(MalformedParameter(""));
    ParseAllCons("", [], ParseFilter);
    assert [""] + [] == [""];
  }

  /** An empty name is accepted. */
  lemma ConfigEmptyName(program: string, decode: PubkeyDecoder)
    requires ' ' !in program && decode(program).Some?
    ensures ParseConfig("=" + program, decode) == Ok(Config("", decode(program).value, []))
  {
    ConfigRoundTrip("", program, [], decode);
    assert "" + "=" + Join([program] + [], ' ') == "=" + program;
  }

  /**
   Empty params still yield one (empty) piece, so the "Program ID not found"
   error is never produced: the empty text reaches the decoder instead.
   */
  lemma ConfigEmptyParams(name: string, decode: PubkeyDecoder)
    requires '=' !in name
    ensures ParseConfig(name + "=", decode)
         == (if decode("").None? then Panic(UnparsableProgramId("")) else Ok(Config(name, decode("").value, [])))
  {
    ConfigRoundTrip(name, "", [], decode);
    assert name + "=" + Join([""] + [], ' ') == name + "=";
  }

  /** The config string `treasury=ProgramXYZ size:165 b58:32:ABC123`. */
  lemma ConfigExample(decode: PubkeyDecoder)
    requires decode("ProgramXYZ").Some?
    ensures ParseConfig("treasury=ProgramXYZ size:165 b58:32:ABC123", decode)
         == Ok(Config("treasury", decode("ProgramXYZ").value, [DataSize(165), Memcmp(32, "ABC123")]))
  {
    var s := "treasury" + "=" + "ProgramXYZ" + " " + "size:" + "165" + " " + "b58:" + "32" + ":" + "ABC123";
    ExampleLiteral();
    var tokens := ["size:" + "165", "b58:" + "32" + ":" + "ABC123"];
    ExampleText(s);
    ConfigRoundTrip("treasury", "ProgramXYZ", tokens, decode);
    ExampleFilters();
    ParseTwoFilters(tokens[0], tokens[1]);
  }

  /** The example config string, written as the pieces the parser cuts it into. */
  lemma ExampleLiteral()
    ensures "treasury=ProgramXYZ size:165 b58:32:ABC123"
         == "treasury" + "=" + "ProgramXYZ" + " " + "size:" + "165" + " " + "b58:" + "32" + ":" + "ABC123"
  {
  }

  lemma ParseTwoFilters(t0: string, t1: string)
    ensures ParseFilter(t0).Ok? && ParseFilter(t1).Ok? ==>
      ParseFilters([t0, t1]) == Ok([ParseFilter(t0).value, ParseFilter(t1).value])
  {
    if ParseFilter(t0).Ok? && ParseFilter(t1).Ok? {
      ParseAllTwo(t0, t1, ParseFilter);
    }
  }

  /** Three pieces joined by a separator. */
  lemma JoinThree(a: string, b: string, c: string, sep: char)
    ensures Join([a, b, c], sep) == a + [sep] + b + [sep] + c
  {
    assert [a, b, c][1..] == [b, c];
    assert [b, c][1..] == [c];
    assert Join([b, c], sep) == b + [sep] + c;
    assert Join([a, b, c], sep) == a + [sep] + (b + [sep] + c);
  }

  /** The example string, cut into name, program id and filter tokens. */
  lemma ExampleText(s: string)
    requires s == "treasury" + "=" + "ProgramXYZ" + " " + "size:" + "165" + " " + "b58:" + "32" + ":" + "ABC123"
    ensures s == "treasury" + "=" + Join(["ProgramXYZ"] + ["size:" + "165", "b58:" + "32" + ":" + "ABC123"], ' ')
  {
    var size := "size:" + "165";
    var memcmp := "b58:" + "32" + ":" + "ABC123";
    assert ["ProgramXYZ"] + [size, memcmp] == ["ProgramXYZ", size, memcmp];
    JoinThree("ProgramXYZ", size, memcmp, ' ');

  }

  /** `165` in decimal. */
  lemma Parse165()
    ensures ParseU64("165") == Success(165)
  {
    assert FormatDecimal(165) == "165" by {
      assert FormatDecimal(16) == "16" by { assert FormatDecimal(1) == "1"; }
    }
    ParseFormatRoundTrip(165);
  }

  /** `32` in decimal. */
  lemma Parse32()
    ensures ParseU64("32") == Success(32)
  {
    assert FormatDecimal(32) == "32" by { assert FormatDecimal(3) == "3"; }
    ParseFormatRoundTrip(32);
  }

  /** The two filter tokens of that config string. */
  lemma ExampleFilters()
    ensures ParseFilter("size:" + "165") == Ok(DataSize(165))
    ensures ParseFilter("b58:" + "32" + ":" + "ABC123") == Ok(Memcmp(32, "ABC123"))
  {
    Parse165();
    FilterDataSize("165");
    Parse32();
    FilterMemcmpRoundTrip("32", 32, "ABC123");
  }

  // ---------------------------------------------------------------------------
  // Watcher cycle
  // ---------------------------------------------------------------------------

  lemma {:induction false} TotalLamportsAppend(a: seq<(Pubkey, Account)>, b: seq<(Pubkey, Account)>)
    ensures TotalLamports(a + b) == TotalLamports(a) + TotalLamports(b)
    decreases |a|
  {
    if |a| > 0 {
      assert (a + b)[1..] == a[1..] + b;
      TotalLamportsAppend(a[1..], b);
    } else {
      assert a + b == b;
    }
  }

  /** No single account holds more than the total. */
  lemma {:induction false} TotalLamportsAtLeast(accounts: seq<(Pubkey, Account)>, k: nat)
    requires k < |accounts|
    ensures accounts[k].1.lamports as nat <= TotalLamports(accounts)
    decreases k
  {
    if k > 0 {
      assert accounts[1..][k - 1] == accounts[k];
      TotalLamportsAtLeast(accounts[1..], k - 1);
    }
  }

  /** Taking one account out of the list takes its lamports out of the total. */
  lemma TotalLamportsRemove(left: seq<(Pubkey, Account)>, x: (Pubkey, Account), right: seq<(Pubkey, Account)>)
    ensures TotalLamports(left + [x] + right) == x.1.lamports as nat + TotalLamports(left + right)
  {
    var tail := [x] + right;
    assert left + [x] + right == left + tail;
    assert tail[1..] == right;
    TotalLamportsAppend(left, tail);
    TotalLamportsAppend(left, right);
  }

  lemma MultisetRemoveAt<T>(b: seq<T>, k: nat)
    requires k < |b|
    ensures multiset(b[..k] + b[k + 1..]) == multiset(b) - multiset{b[k]}
  {
    assert b == b[..k] + [b[k]] + b[k + 1..];
    assert multiset(b) == multiset(b[..k]) + multiset{b[k]} + multiset(b[k + 1..]);
  }

  /** Matching the first element of `a` with `b[k]` leaves two permutations of each other. */
  lemma PermutationTail<T>(a: seq<T>, b: seq<T>, k: nat)
    requires multiset(a) == multiset(b) && 0 < |a| && k < |b| && b[k] == a[0]
    ensures multiset(a[1..]) == multiset(b[..k] + b[k + 1..])
  {
    assert a == [a[0]] + a[1..];
    assert multiset(a[1..]) == multiset(a) - multiset{a[0]};
    MultisetRemoveAt(b, k);
  }

  /** The total does not depend on the order in which the RPC node lists the accounts. */
  lemma {:induction false} TotalLamportsPermutation(a: seq<(Pubkey, Account)>, b: seq<(Pubkey, Account)>)
    requires multiset(a) == multiset(b)
    ensures TotalLamports(a) == TotalLamports(b)
    decreases |a|
  {
    if |a| > 0 {
      assert a[0] in multiset(b);
      var k :| 0 <= k < |b| && b[k] == a[0];
      var rest := b[..k] + b[k + 1..];
      PermutationTail(a, b, k);
      TotalLamportsPermutation(a[1..], rest);
      assert b == b[..k] + [b[k]] + b[k + 1..];
      TotalLamportsRemove(b[..k], b[k], b[k + 1..]);
    } else {
      assert |multiset(b)| == 0;
    }
  }

  /** Three accounts holding 100, 200 and 300 lamports give a total of 600. */
  lemma CycleExample(store: Store, config: Config, k1: Pubkey, k2: Pubkey, k3: Pubkey)
    ensures Cycle(store, config, RpcOk([(k1, Account(100)), (k2, Account(200)), (k3, Account(300))])).totals[config.name] == 600
  {
    var accounts := [(k1, Account(100)), (k2, Account(200)), (k3, Account(300))];
    assert accounts[1..][1..][1..] == [];
    assert TotalLamports(accounts[1..][1..]) == 300;
    assert TotalLamports(accounts[1..]) == 500;
  }

  /**
   Watchers of differently named configs never interfere: applying their cycles
   in either order gives the same store.
   */
  lemma CyclesCommute(store: Store, c1: Config, r1: RpcResponse<seq<(Pubkey, Account)>>,
                      c2: Config, r2: RpcResponse<seq<(Pubkey, Account)>>)
    requires c1.name != c2.name
    ensures Cycle(Cycle(store, c1, r1), c2, r2) == Cycle(Cycle(store, c2, r2), c1, r1)
  {
    var a := Cycle(Cycle(store, c1, r1), c2, r2);
    var b := Cycle(Cycle(store, c2, r2), c1, r1);
    assert a.totals.Keys == b.totals.Keys;
    assert a.totals == b.totals;
  }
}

=== FILE: solana.dfy ===
/**
 The pieces of the Solana SDK and RPC client that the watchers consume, reduced
 to what the model needs. Base58 decoding and encoding of public keys
 (`Pubkey::from_str`, `Pubkey::to_string`) are not modelled: every operation
 that needs them takes them as function parameters.
 */
module Solana {
  import opened Wrappers
  import opened Text

  /** The bytes of an account address (32 in the SDK; the model does not constrain the length). */
  datatype Pubkey = Pubkey(bytes: seq<bv8>)

  /** The part of an RPC account record the watchers read. */
  datatype Account = Account(lamports: u64)

  /** Outcome of one RPC request: its payload, or a transport error. */
  datatype RpcResponse<+T> = RpcOk(value: T) | RpcErr

  /** `Pubkey::from_str`: a partial map from text to addresses. */
  type PubkeyDecoder = string -> Option<Pubkey>

  /** `Pubkey::to_string`: the text used as the `pubkey` gauge label. */
  type PubkeyEncoder = Pubkey -> string

  /** Distinct addresses render as distinct label text (true of base58). */
  ghost predicate Injective(show: PubkeyEncoder)
  {
    forall a: Pubkey, b: Pubkey :: show(a) == show(b) ==> a == b
  }
}

=== FILE: text.dfy ===
/**
 Text primitives of the Rust standard library that the configuration parsers
 rely on: `str::split_once`, `str::split` with a single-character pattern, and
 `u64::from_str`. Strings are sequences of characters; the separators used by
 the parsers (`=`, `:`, ` `) are all ASCII, and splitting at an ASCII
 character gives the same pieces on characters as on UTF-8 bytes.
 */
module Text {
  import opened Wrappers

  const U64_LIMIT: int := 0x1_0000_0000_0000_0000

  /** Rust's `u64` (and `usize` on a 64-bit target). */
  newtype u64 = x: int | 0 <= x < U64_LIMIT

  /** Position of the first occurrence of `c` in `s`, if any. */
  function IndexOf(s: string, c: char): (r: Option<nat>)
    ensures r.None? <==> c !in s
    ensures r.Some? ==> r.value < |s| && s[r.value] == c && c !in s[..r.value]
  {
    if |s| == 0 then None
    else if s[0] == c then Some(0)
    else
      match IndexOf(s[1..], c)
      case None => None
      case Some(i) =>
        assert s[..i + 1] == [s[0]] + s[1..][..i];
        Some(i + 1)
  }

  /** `s.split_once(c)`: the text before and after the FIRST `c`. */
  function SplitOnce(s: string, c: char): (r: Option<(string, string)>)
    ensures r.None? <==> c !in s
    ensures r.Some? ==> s == r.value.0 + [c] + r.value.1 && c !in r.value.0
  {
    match IndexOf(s, c)
    case None => None
    case Some(i) =>
      assert s == s[..i] + [c] + s[i + 1..];
      Some((s[..i], s[i + 1..]))
  }

  /** Splitting at the first `c` recovers a left part free of `c` and any right part. */
  lemma {:induction false} SplitOnceOfConcat(left: string, c: char, right: string)
    requires c !in left
    ensures SplitOnce(left + [c] + right, c) == Some((left, right))
  {
    var s := left + [c] + right;
    var r := SplitOnce(s, c);
    assert c in s by { assert s[|left|] == c; }
    var i := |r.value.0|;
    assert forall k :: 0 <= k < |left| ==> s[k] == left[k];
    assert s[|left|] == c;
    assert r.value.0 == s[..i] == left;
    assert r.value.1 == s[i + 1..] == right;
  }

  /** The pieces of a split glued back together with `c` between neighbours. */
  function Join(parts: seq<string>, c: char): string
  {
    if |parts| == 0 then []
    else if |parts| == 1 then parts[0]
    else parts[0] + [c] + Join(parts[1..], c)
  }

  /**
   `s.split(c).collect::<Vec<_>>()`: every maximal piece between separators,
   including empty ones; the empty string yields one empty piece.
   */
  function Split(s: string, c: char): (r: seq<string>)
    ensures |r| >= 1
    ensures forall i :: 0 <= i < |r| ==> c !in r[i]
    ensures Join(r, c) == s
    decreases |s|
  {
    match SplitOnce(s, c)
    case None => [s]
    case Some((left, right)) => [left] + Split(right, c)
  }

  /** Splitting a joined sequence of separator-free pieces recovers the pieces. */
  lemma {:induction false} SplitOfJoin(parts: seq<string>, c: char)
    requires |parts| >= 1
    requires forall i :: 0 <= i < |parts| ==> c !in parts[i]
    ensures Split(Join(parts, c), c) == parts
    decreases |parts|
  {
    if |parts| > 1 {
      var rest := Join(parts[1..], c);
      SplitOnceOfConcat(parts[0], c, rest);
      SplitOfJoin(parts[1..], c);
      assert parts == [parts[0]] + parts[1..];
    } else {
      assert c !in parts[0];
    }
  }

  predicate IsDigit(ch: char)
  {
    '0' <= ch <= '9'
  }

  predicate AllDigits(s: string)
  {
    forall i :: 0 <= i < |s| ==> IsDigit(s[i])
  }

  function DigitValue(ch: char): nat
    requires IsDigit(ch)
  {
    ch as int - '0' as int
  }

  function DigitChar(d: nat): char
    requires d < 10
  {
    (d + '0' as int) as char
  }

  /** The number written by a string of decimal digits, most significant first. */
  function DigitsValue(s: string): nat
    requires AllDigits(s)
  {
    if |s| == 0 then 0
    else 10 * DigitsValue(s[..|s| - 1]) + DigitValue(s[|s| - 1])
  }

  /** A prefix of a digit string never writes a larger number. */
  lemma {:induction false} DigitsValuePrefix(s: string, j: nat)
    requires AllDigits(s) && j <= |s|
    ensures AllDigits(s[..j]) && DigitsValue(s[..j]) <= DigitsValue(s)
  {
    if j < |s| {
      var init := s[..|s| - 1];
      DigitsValuePrefix(init, j);
      assert init[..j] == s[..j];
    } else {
      assert s[..j] == s;
    }
  }

  /** `ParseIntErrorKind`, restricted to the kinds an unsigned parse can produce. */
  datatype IntErrorKind = Empty | InvalidDigit | PosOverflow

  /**
   The digit loop of `u64::from_str_radix`, from position `i` on, with the
   digits before `i` already accumulated: each character is first checked to
   be a digit, then the accumulated value is checked to stay below 2^64.
   */
  function ScanDigits(d: string, i: nat): (r: Result<u64, IntErrorKind>)
    requires i <= |d| && AllDigits(d[..i]) && DigitsValue(d[..i]) < U64_LIMIT
    ensures r.Success? ==> AllDigits(d) && r.value as int == DigitsValue(d)
    ensures r.Failure? ==> r.error != Empty
    ensures AllDigits(d) && DigitsValue(d) < U64_LIMIT ==> r == Success(DigitsValue(d) as u64)
    ensures AllDigits(d) && DigitsValue(d) >= U64_LIMIT ==> r == Failure(PosOverflow)
    decreases |d| - i
  {
    if i == |d| then
      assert d[..i] == d;
      Success(DigitsValue(d[..i]) as u64)
    else if !IsDigit(d[i]) then Failure(InvalidDigit)
    else
      assert AllDigits(d[..i + 1]) by {
        assert forall k :: 0 <= k < i ==> d[..i + 1][k] == d[..i][k];
      }
      assert d[..i + 1][..i] == d[..i];
      if DigitsValue(d[..i + 1]) >= U64_LIMIT then
        assert AllDigits(d) ==> DigitsValue(d) >= U64_LIMIT by {
          if AllDigits(d) { DigitsValuePrefix(d, i + 1); }
        }
        Failure(PosOverflow)
      else ScanDigits(d, i + 1)
  }

  /** The text after an optional leading `+`. */
  function Magnitude(s: string): string
  {
    if |s| > 0 && s[0] == '+' then s[1..] else s
  }

  /**
   `s.parse::<u64>()`: empty text is `Empty`, a lone sign is `InvalidDigit`,
   one leading `+` is skipped, and the digit loop decides the rest. A `-` is
   not a sign for an unsigned type, so it is an invalid digit.
   */
  function ParseU64(s: string): (r: Result<u64, IntErrorKind>)
    ensures r == Failure(Empty) <==> |s| == 0
    ensures r.Success? ==> |s| > 0 && forall i :: 0 <= i < |s| ==> IsDigit(s[i]) || (i == 0 && s[i] == '+')
    ensures |s| > 0 && s[0] == '-' ==> r == Failure(InvalidDigit)
    ensures |s| == 1 && s[0] == '+' ==> r == Failure(InvalidDigit)
    ensures |Magnitude(s)| > 0 && AllDigits(Magnitude(s)) ==>
      r == if DigitsValue(Magnitude(s)) < U64_LIMIT then Success(DigitsValue(Magnitude(s)) as u64)
           else Failure(PosOverflow)
  {
    if |s| == 0 then Failure(Empty)
    else if |s| == 1 && (s[0] == '+' || s[0] == '-') then Failure(InvalidDigit)
    else
      var d := Magnitude(s);
      assert d[..0] == [];
      assert forall i :: 1 <= i < |s| && s[0] == '+' ==> s[i] == d[i - 1];
      ScanDigits(d, 0)
  }

  /**
   When the digits before a non-digit character still fit, the parse fails
   with `InvalidDigit`, whatever follows (an overflow further on included).
   */
  lemma {:induction false} ScanFindsInvalidDigit(d: string, i: nat, j: nat)
    requires i <= j < |d| && AllDigits(d[..i]) && DigitsValue(d[..i]) < U64_LIMIT
    requires AllDigits(d[..j]) && DigitsValue(d[..j]) < U64_LIMIT && !IsDigit(d[j])
    ensures ScanDigits(d, i) == Failure(InvalidDigit)
    decreases j - i
  {
    if i < j {
      assert d[i] == d[..j][i];
      assert d[..i + 1] == d[..j][..i + 1];
      DigitsValuePrefix(d[..j], i + 1);
      ScanFindsInvalidDigit(d, i + 1, j);
    }
  }

  /**
   When the digits up to some position overflow and every digit before it
   still fit, the parse fails with `PosOverflow`, whatever follows (a later
   non-digit included).
   */
  lemma {:induction false} ScanFindsOverflow(d: string, i: nat, k: nat)
    requires i < k <= |d| && AllDigits(d[..i]) && DigitsValue(d[..i]) < U64_LIMIT
    requires AllDigits(d[..k]) && AllDigits(d[..k - 1])
    requires DigitsValue(d[..k - 1]) < U64_LIMIT <= DigitsValue(d[..k])
    ensures ScanDigits(d, i) == Failure(PosOverflow)
    decreases k - i
  {
    assert d[i] == d[..k][i];
    if i + 1 == k {
      assert d[..i + 1] == d[..k];
    } else {
      assert d[..i + 1] == d[..k - 1][..i + 1];
      DigitsValuePrefix(d[..k - 1], i + 1);
      ScanFindsOverflow(d, i + 1, k);
    }
  }

  /** Canonical decimal rendering: no sign, no leading zeros. */
  function FormatDecimal(n: nat): (r: string)
    ensures |r| >= 1 && AllDigits(r)
    ensures |r| > 1 ==> r[0] != '0'
  {
    if n < 10 then [DigitChar(n)]
    else FormatDecimal(n / 10) + [DigitChar(n % 10)]
  }

  lemma {:induction false} DigitsValueOfFormat(n: nat)
    ensures DigitsValue(FormatDecimal(n)) == n
  {
    var s := FormatDecimal(n);
    if n >= 10 {
      DigitsValueOfFormat(n / 10);
      assert s[..|s| - 1] == FormatDecimal(n / 10);
    }
  }

  /** Parsing the decimal rendering of any `u64` gives the number back. */
  lemma ParseFormatRoundTrip(n: u64)
    ensures ParseU64(FormatDecimal(n as nat)) == Success(n)
  {
    DigitsValueOfFormat(n as nat);
  }

  /** An explicit `+` sign is accepted in front of the digits. */
  lemma ParsePlusFormat(n: u64)
    ensures ParseU64("+" + FormatDecimal(n as nat)) == Success(n)
  {
    var s := "+" + FormatDecimal(n as nat);
    assert Magnitude(s) == FormatDecimal(n as nat);
    DigitsValueOfFormat(n as nat);
  }

  /** `k` zero characters. */
  function Zeros(k: nat): (r: string)
    ensures |r| == k && AllDigits(r)
  {
    seq(k, _ => '0')
  }

  /** Leading zeros do not change the number a digit string writes. */
  lemma {:induction false} DigitsValueLeadingZeros(k: nat, t: string)
    requires AllDigits(t)
    ensures AllDigits(Zeros(k) + t) && DigitsValue(Zeros(k) + t) == DigitsValue(t)
    decreases |t|, k
  {
    var s := Zeros(k) + t;
    assert AllDigits(s) by {
      forall i | 0 <= i < |s| ensures IsDigit(s[i]) {
        if i >= k { assert s[i] == t[i - k]; }
      }
    }
    if |t| > 0 {
      assert s[..|s| - 1] == Zeros(k) + t[..|t| - 1];
      DigitsValueLeadingZeros(k, t[..|t| - 1]);
    } else if k > 0 {
      assert s[..|s| - 1] == Zeros(k - 1) + t;
      DigitsValueLeadingZeros(k - 1, t);
    }
  }

  /** Zero-padded decimal text parses to the same number: `"007"` is 7. */
  lemma ParsePaddedFormat(k: nat, n: u64)
    ensures ParseU64(Zeros(k) + FormatDecimal(n as nat)) == Success(n)
  {
    var s := Zeros(k) + FormatDecimal(n as nat);
    DigitsValueOfFormat(n as nat);
    DigitsValueLeadingZeros(k, FormatDecimal(n as nat));
    if k > 0 { assert s[0] == '0'; } else { assert s[0] == FormatDecimal(n as nat)[0]; }
    assert Magnitude(s) == s;
  }

  /** Decimal text of any number of 2^64 or more is rejected as an overflow. */
  lemma ParseRejectsOverflow(n: nat)
    requires n >= U64_LIMIT
    ensures ParseU64(FormatDecimal(n)) == Failure(PosOverflow)
  {
    DigitsValueOfFormat(n);
  }

  /**
   A non-digit reached (after the optional `+`) before the value overflows
   makes the parse fail with `InvalidDigit`: the digit check comes first at
   every position.
   */
  lemma ParseInvalidDigit(s: string, j: nat)
    requires j < |Magnitude(s)| && AllDigits(Magnitude(s)[..j]) && DigitsValue(Magnitude(s)[..j]) < U64_LIMIT
    requires !IsDigit(Magnitude(s)[j])
    ensures ParseU64(s) == Failure(InvalidDigit)
  {
    if !(|s| == 1 && (s[0] == '+' || s[0] == '-')) {
      var d := Magnitude(s);
      assert d[..0] == [];
      ScanFindsInvalidDigit(d, 0, j);
    }
  }

  /**
   Digits (after the optional `+`) that overflow before any non-digit is
   reached make the parse fail with `PosOverflow`: the overflow check at a
   position comes before anything later is looked at.
   */
  lemma ParseOverflowFirst(s: string, k: nat)
    requires 0 < k <= |Magnitude(s)| && AllDigits(Magnitude(s)[..k]) && AllDigits(Magnitude(s)[..k - 1])
    requires DigitsValue(Magnitude(s)[..k - 1]) < U64_LIMIT <= DigitsValue(Magnitude(s)[..k])
    ensures ParseU64(s) == Failure(PosOverflow)
  {
    var d := Magnitude(s);
    assert d[..0] == [];
    ScanFindsOverflow(d, 0, k);
  }
}

=== FILE: wrappers.dfy ===
/** The optional-value and result datatypes shared by every module of the model. */
module Wrappers {

  /** Rust's `Option<T>`. */
  datatype Option<+T> = None | Some(value: T)

  /** Rust's `Result<T, E>`. */
  datatype Result<+T, +E> = Success(value: T) | Failure(error: E)
}
